=== FILE: README.md ===
# nockchain-rpc: wallet-output parser and request check

This project models the logic of the `nockchain-rpc` balance service that does not depend on I/O:

- `parse_nockchain_output` reads the text that the `nockchain-wallet list-notes-by-pubkey` tool prints. It takes every line that, once trimmed, reads `- assets: <digits>`, adds up the amounts as `u64`, and accepts the total only if at least nine such lines were found.
- The `/rpc/getBalance` handler runs a request check first. A request is served only if `jsonrpc` is `"2.0"`, `method` is `"getBalance"` and `params` is present. Any other request gets JSON-RPC error -32600, "Invalid Request".

The model writes out the Rust standard-library and `regex` behaviour that the parser relies on:

- `str::trim` removes Unicode `White_Space` characters from both ends (`Text.Trim`).
- `str::lines` splits at `\n` and drops a `\r` just before it. A final line ending is optional (`Text.Lines`).
- `u64::from_str` accepts an optional `+`, then ASCII digits. It reads left to right with checked arithmetic and reports `Empty`, `InvalidDigit` or `PosOverflow` (`Integer.ParseU64`).
- In the pattern `^- assets: (\d+)\s*$`, `\d` is the Unicode category `Nd` and `\s` is `White_Space`. Both come from the Unicode 15.0 tables (`Unicode`). The pattern itself is `AssetLines.MatchesAt`.

The parser is layered as follows:

- `AssetLines.Classify` is the body of the loop: `Text.Trim` followed by `AssetLines.ClassifyTrimmed`. It gives each line one of four kinds: skipped, unmatched, asset with an amount, or asset with an unparsable amount.
- `WalletOutput.Scan` is the loop over classified lines.
- `WalletOutput.Summarize` applies the nine-line threshold.
- `WalletOutput.Parse` is the whole function, with the total kept exact.
- `WalletOutput.ParseAsWritten` is the same function with the release-build `u64` wrap-around (see Findings).

Three things the model shows about the source:

- Skipping lines that are empty or contain the escape character (`src/main.rs:59-63`) never changes the result. Such a line cannot match the pattern anyway (`AssetLines.SkippedLinesNeverMatch`).
- On a trimmed line the `\s*` tail of the pattern is always empty. The capture group is everything after the prefix (`AssetLines.TrimmedCapture`).
- A `\d` digit from another script, such as U+0663, passes the pattern but not `u64::from_str`. The whole call then fails (`AssetLines.NonAsciiDigitRejected`, `WalletOutput.ScanStopsAtBadAmount`).

Modules: `Wrappers` (Option/Result), `Unicode`, `Text`, `Integer`, `Sums` (maps and sums over sequences and their invariance under reordering), `AssetLines`, `WalletOutput`, `JsonRpc`.

## Model

| member | source | states |
|---|---|---|
| Text.Trim | src/main.rs:56 | the trimmed line is empty exactly when the line is all whitespace, and otherwise starts and ends with non-whitespace |
| Text.TrimIsFactor | src/main.rs:56 | the trimmed line is a factor of the line with only whitespace before and after it |
| Text.Lines | src/main.rs:55 | no line contains a line feed; the empty string has no lines, and every other string has at least one |
| Text.LinesJoinLines | src/main.rs:55 | splitting lines that were printed one per line with a trailing newline gives back exactly those lines, empty ones included |
| Text.JoinLinesLines | src/main.rs:55 | for a string without carriage returns, printing the lines found back one per line gives the string itself, with a line feed added at the end if it had none |
| Text.LinesJoinCrlfLines | src/main.rs:55 | lines printed with `\r\n` endings split back into exactly those lines: the carriage return before each line feed is dropped |
| Text.BlankIffLinesBlank | src/main.rs:45-56 | the output is all whitespace exactly when every line is all whitespace, so the emptiness check at the top agrees with the per-line trim |
| Integer.Accumulate | src/main.rs:67 | the left-to-right checked digit loop succeeds exactly when every character is an ASCII digit and the value fits in 64 bits, and then returns that value; an all-digit string that fails reports overflow; otherwise the first non-digit reports an invalid digit, unless the digits before it already overflow |
| Integer.ParseU64 | src/main.rs:67 | `u64::from_str` accepts exactly an optional plus sign followed by one or more ASCII digits whose value is below 2^64; the empty string is the `Empty` error and a lone plus sign an invalid digit; a failing all-digit string is `PosOverflow`, and otherwise the first non-digit gives `InvalidDigit` unless the digits before it already overflow |
| Integer.ParseU64ToDecimal | src/main.rs:67 | every `u64` written in decimal parses back to itself |
| AssetLines.CaptureIsRegexMatch | src/main.rs:51 | the capture finds the match whenever `^- assets: (\d+)\s*$` matches, at the only possible split, and whatever it returns is a match |
| AssetLines.TrimmedCapture | src/main.rs:56-66 | on a trimmed line the pattern matches exactly the prefix followed by one or more `\d` digits and nothing else, and captures everything after the prefix |
| AssetLines.ClassifyTrimmed | src/main.rs:59-71 | a trimmed line contributes an amount or an error exactly when it is an asset line; the amount is the decimal value of the captured ASCII digits and is below 2^64; an error means the digits are not all ASCII or the value overflows, and its kind is `PosOverflow` for all-ASCII digits and otherwise `InvalidDigit` exactly when the digits before the first non-ASCII one fit in 64 bits |
| AssetLines.SkippedLinesNeverMatch | src/main.rs:59-65 | a trimmed line that is empty or contains the escape character is skipped, and the pattern alone would reject it as well |
| AssetLines.NonAsciiDigitRejected | src/main.rs:65-67 | the line `- assets: ` followed by U+0663 matches the pattern with that digit as the group, and its amount is an invalid digit |
| AssetLines.AssetLineClassified | src/main.rs:65-67 | a line printing any `u64` amount in decimal is counted with exactly that amount |
| WalletOutput.Scan | src/main.rs:55-73 | the loop succeeds exactly when no line has an unparsable amount, and then its total and count are the sums of the amounts and of the asset lines over all lines |
| WalletOutput.ScanStopsAtBadAmount | src/main.rs:67 | once a line with an unparsable amount follows only good lines, the result is that line's error whatever lines come after it |
| WalletOutput.ScanIgnoresOtherLines | src/main.rs:59-72 | inserting a skipped or unmatched line anywhere leaves total, count and error unchanged |
| WalletOutput.SummarizeIgnoresOtherLines | src/main.rs:55-80 | inserting any line that is not an asset line into the sequence of lines leaves the result after the emptiness check unchanged |
| WalletOutput.Summarize | src/main.rs:55-80 | the result is the total exactly when every amount parses and there are at least nine asset lines; with fewer it is `Incomplete` carrying the count; the first line with an unparsable amount decides the error, whatever follows; there is no upper limit |
| WalletOutput.Parse | src/main.rs:44-81 | all-whitespace output is exactly the `EmptyOutput` error; otherwise success means every amount parses and at least nine asset lines exist, and the value is the exact sum of the amounts; otherwise fewer than nine asset lines is `Incomplete` with the count, and an unparsable amount is the parse error of the first such line |
| WalletOutput.ParseAsWritten | src/main.rs:44-81 | as written, the errors are those of the exact version: `EmptyOutput` exactly on all-whitespace output, `Incomplete` with the count, and the first unparsable amount; success has the same condition, and its value is the sum of the amounts modulo 2^64 |
| WalletOutput.BlankOutputSkipsEveryLine | src/main.rs:45-48 | in all-whitespace output every line would be skipped, so rejecting it first examines no line that could count |
| WalletOutput.SummarizeOrderIndependent | src/main.rs:52-80 | reordering the classified lines changes the result at most in which unparsable amount is reported |
| WalletOutput.ParseOrderIndependent | src/main.rs:44-81 | two outputs with the same lines in a different order give the same result, except possibly which unparsable amount is reported |
| WalletOutput.ScanWrappingIsScanModulo | src/main.rs:69 | the wrapping loop has the same error and count as the exact loop, and its total is the exact total modulo 2^64 |
| WalletOutput.AsWrittenWrapsTotal | src/main.rs:69 | as written, every error is the same and a success returns the exact total modulo 2^64; the two agree whenever the total is below 2^64 |
| WalletOutput.NineAssetLinesParsed | src/main.rs:44-81 | nine lines for amount n give exactly 9·n, and 9·n modulo 2^64 as written |
| WalletOutput.WrapAroundWitness | src/main.rs:69 | nine lines of 18446744073709551615 give 9·(2^64−1) exactly, but 2^64−9 as written |
| WalletOutput.IncompleteMessageCarriesCount | src/main.rs:78 | the "Incomplete output" message carries the count in decimal and it reads back to the count |
| JsonRpc.Admit | src/main.rs:87-99 | a request is rejected exactly when `jsonrpc` is not "2.0", the method is not "getBalance", or params are absent; the rejection is error -32600 "Invalid Request" echoing the id; otherwise the public key from params goes on |
| JsonRpc.AdmitIgnoresOtherFields | src/main.rs:87-101 | apart from the three checks, only the id and the public key affect the outcome of the check |

## Findings

| source | as written | input that shows it | evidently intended | confidence | as-written member | corrected member |
|---|---|---|---|---|---|---|
| src/main.rs:69 | `total_assets += assets` adds `u64` amounts without a check; a release build wraps modulo 2^64 and a debug build panics | nine lines `- assets: 18446744073709551615` | the total of the amounts, never a wrapped value | medium; not executed | WalletOutput.ParseAsWritten, shown by WalletOutput.WrapAroundWitness | WalletOutput.Parse, proved by WalletOutput.Parse and WalletOutput.NineAssetLinesParsed |

`WalletOutput.Parse` keeps the total exact, in `nat`. It does not choose an error for totals of 2^64 or more, because the source does not say what one should be. `WalletOutput.AsWrittenWrapsTotal` shows that the two versions agree whenever the total fits.

## Left out

- Running `nockchain-wallet`, the command timeout and the exit-status handling (src/main.rs:144-170, 200-227). These are process I/O. The parser takes the tool's stdout as a string.
- `String::from_utf8_lossy` on the tool's output (src/main.rs:171). The model starts from the decoded string.
- The conversion from nicks to nocks, `total as f64 / 65536.0` (src/main.rs:177). It is floating point.
- The mapping of parse errors and of the other failures to JSON-RPC responses -32002, -32001 and -32000 (src/main.rs:104-142, 186-226). This is transport around the parser. `WalletOutput.Message` gives the error text that the -32002 response carries.
- Reading `NOCKCHAIN_SOCKET`, `COMMAND_TIMEOUT_SECS` and `PORT`, with defaults 120 and 3000 (src/main.rs:104-142, 230-251). This is environment I/O.
- The HTTP server, JSON (de)serialisation and logging (src/main.rs:1-41, 85, 230-251). The model starts from an already deserialised request.
- The HTTP status of each response (src/main.rs:89-226): 400 Bad Request for the rejected request, 500 for every other failure, and 200 for a balance. `JsonRpc.Response` models only the JSON-RPC body.
- The error branch of `Regex::new` (src/main.rs:51). The pattern is a constant that always compiles, so that branch is unreachable.
- `build.rs`. It only calls the protobuf code generator.
- `asset_count` is an `i32` in the source and is modelled as a `nat`. Overflow would need more than 2^31 matching lines.
- The `Nd` and `White_Space` tables are those of Unicode 15.0. The `regex` crate version in use may follow a later Unicode release that adds digit runs.
- Text.Lines: its own contract states only the shape of the lines. Their content is pinned down by `Text.LinesJoinLines`, `Text.JoinLinesLines` and `Text.LinesJoinCrlfLines`. No lemma covers a string that mixes carriage returns not followed by a line feed with other line endings.
- WalletOutput.ParseOrderIndependent: when both orders fail on an unparsable amount, it does not say which error kind each reports. That depends on which bad line comes first.

=== FILE: asset_lines.dfy ===
/**
 * One line of `nockchain-wallet list-notes-by-pubkey` output, as the body of
 * the loop in `parse_nockchain_output` sees it: trimmed, filtered, matched
 * against `^- assets: (\d+)\s*$` and its amount parsed as a `u64`.
 */
module AssetLines {
  import opened Wrappers
  import opened Unicode
  import opened Text
  import opened Integer

  /** The literal part of the pattern `^- assets: (\d+)\s*$`. */
  const AssetPrefix: string := "- assets: "

  /** The escape character that starts a terminal colour code in log lines. */
  const Esc: char := '\U{1B}'

  /** Every character is a `\d` digit. */
  predicate AllDigits(s: string)
  {
    forall i :: 0 <= i < |s| ==> IsDecimalDigit(s[i])
  }

  /** The length of the longest run of `\d` digits that `s` starts with. */
  function DigitRun(s: string): (n: nat)
    ensures n <= |s| && AllDigits(s[..n])
    ensures n < |s| ==> !IsDecimalDigit(s[n])
  {
    if s != [] && IsDecimalDigit(s[0]) then
      var n := 1 + DigitRun(s[1..]);
      assert s[..n] == [s[0]] + s[1..][..n - 1];
      n
    else 0
  }

  /** A run of `m` digits not followed by another digit is the run `DigitRun` finds. */
  lemma {:induction false} DigitRunIsMaximal(s: string, m: nat)
    requires m <= |s| && AllDigits(s[..m])
    requires m < |s| ==> !IsDecimalDigit(s[m])
    ensures DigitRun(s) == m
  {
    if m > 0 {
      assert s[0] == s[..m][0];
      assert s[1..][..m - 1] == s[..m][1..];
      if m < |s| {
        assert s[1..][m - 1] == s[m];
      }
      DigitRunIsMaximal(s[1..], m - 1);
    }
  }

  /**
   * The regular expression `^- assets: (\d+)\s*$` matches the whole of `l`
   * with its capture group ending at position `k`.
   */
  predicate MatchesAt(l: string, k: int)
  {
    && |AssetPrefix| < k <= |l|
    && l[..|AssetPrefix|] == AssetPrefix
    && AllDigits(l[|AssetPrefix|..k])
    && Blank(l[k..])
  }

  /**
   * The capture group of `^- assets: (\d+)\s*$` on `l`, if the pattern
   * matches. Because no `\d` digit is `\s` whitespace, the group is the
   * maximal digit run after the prefix.
   */
  function Capture(l: string): Option<string>
  {
    if |l| < |AssetPrefix| || l[..|AssetPrefix|] != AssetPrefix then None
    else
      var rest := l[|AssetPrefix|..];
      var n := DigitRun(rest);
      if n > 0 && Blank(rest[n..]) then Some(rest[..n]) else None
  }

  /** Whenever the pattern matches, `Capture` finds the match, at the only split there is. */
  lemma CaptureFindsMatch(l: string, k: int)
    requires MatchesAt(l, k)
    ensures Capture(l) == Some(l[|AssetPrefix|..k])
  {
    var p := |AssetPrefix|;
    var rest := l[p..];
    var n := DigitRun(rest);
    var m := k - p;
    assert rest[..m] == l[p..k];
    if m < |rest| {
      assert rest[m] == l[k..][0];
      DigitIsNotWhitespace(rest[m]);
    }
    DigitRunIsMaximal(rest, m);
    assert n == m;
    assert rest[n..] == l[k..];
  }

  /** Whatever `Capture` returns is a match of the pattern. */
  lemma CaptureIsMatch(l: string)
    requires Capture(l).Some?
    ensures MatchesAt(l, |AssetPrefix| + |Capture(l).value|)
  {
    var p := |AssetPrefix|;
    var rest := l[p..];
    var n := DigitRun(rest);
    assert l[p..p + n] == rest[..n];
    assert l[p + n..] == rest[n..];
  }

  /** `Capture` agrees with the pattern: it finds the match when there is one, and the group it returns is a match. */
  lemma CaptureIsRegexMatch(l: string, k: int)
    ensures MatchesAt(l, k) ==> Capture(l) == Some(l[|AssetPrefix|..k])
    ensures Capture(l).Some? ==> MatchesAt(l, |AssetPrefix| + |Capture(l).value|)
  {
    if MatchesAt(l, k) {
      CaptureFindsMatch(l, k);
    }
    if Capture(l).Some? {
      CaptureIsMatch(l);
    }
  }

  /** A trimmed line counts as an asset line: the prefix, then one or more `\d` digits, then nothing. */
  predicate IsAssetLine(l: string)
  {
    |l| > |AssetPrefix| && l[..|AssetPrefix|] == AssetPrefix && AllDigits(l[|AssetPrefix|..])
  }

  /** On a trimmed line the pattern matches exactly the asset lines, and the group is everything after the prefix. */
  lemma TrimmedCapture(l: string)
    requires Trimmed(l)
    ensures Capture(l).Some? <==> IsAssetLine(l)
    ensures IsAssetLine(l) ==> Capture(l) == Some(l[|AssetPrefix|..])
  {
    var p := |AssetPrefix|;
    if IsAssetLine(l) {
      assert l[|l|..] == [];
      CaptureFindsMatch(l, |l|);
    }
    if Capture(l).Some? {
      var k := p + |Capture(l).value|;
      CaptureIsMatch(l);
      assert l[p..k] == l[p..];
    }
  }

  /** A trimmed line that contains an escape character is never an asset line. */
  lemma EscapeIsNotAssetLine(l: string)
    requires Esc in l
    ensures !IsAssetLine(l)
  {
  }

  /** A captured amount `u64::from_str` accepts: ASCII digits whose value fits in 64 bits. */
  predicate ValidAmount(d: string)
  {
    AllAsciiDigits(d) && DecimalValue(d) < U64Limit
  }

  /** What one line of output contributes. */
  datatype LineKind =
    | Skipped                          // empty after trimming, or contains an escape character
    | Unmatched                        // the pattern does not match
    | Asset(value: nat)                // an asset line with a valid amount
    | Unparsable(kind: IntErrorKind)   // an asset line whose amount is not a `u64`

  /**
   * The body of the loop over `output.lines()` once the line `l` is trimmed:
   * skip it if it is empty or holds an escape character, otherwise match
   * the pattern and parse the captured digits as a `u64`.
   */
  function ClassifyTrimmed(l: string): (k: LineKind)
    requires Trimmed(l)
    ensures (k.Asset? || k.Unparsable?) <==> IsAssetLine(l)
    ensures k.Asset? ==> ValidAmount(l[|AssetPrefix|..])
                         && k.value == DecimalValue(l[|AssetPrefix|..])
                         && k.value < U64Limit
    ensures k.Unparsable? ==> !ValidAmount(l[|AssetPrefix|..])
    ensures k.Unparsable? ==> k.kind == InvalidDigit || k.kind == PosOverflow
    ensures k.Unparsable? && AllAsciiDigits(l[|AssetPrefix|..]) ==> k.kind == PosOverflow
    ensures IsAssetLine(l) ==>
              forall i :: FirstNonDigitAt(l[|AssetPrefix|..], i) ==>
                k == Unparsable(if DecimalValue(l[|AssetPrefix|..][..i]) < U64Limit then InvalidDigit else PosOverflow)
  {
    TrimmedCapture(l);
    if l == [] || Esc in l then
      assert Esc in l ==> !IsAssetLine(l) by {
        if Esc in l {
          EscapeIsNotAssetLine(l);
        }
      }
      Skipped
    else
      match Capture(l)
      case None => Unmatched
      case Some(d) =>
        assert d[0] != '+' by {
          assert IsDecimalDigit(l[|AssetPrefix|..][0]);
        }
        match ParseU64(d)
        case Ok(v) => Asset(v)
        case Err(e) => Unparsable(e)
  }

  /** The whole loop body: trim the raw line, then classify it. */
  function Classify(raw: string): LineKind
  {
    ClassifyTrimmed(Trim(raw))
  }

  /** A trimmed line that is empty or holds an escape character is skipped; the pattern alone would reject it too. */
  lemma SkippedLinesNeverMatch(l: string)
    requires Trimmed(l) && (l == [] || Esc in l)
    ensures ClassifyTrimmed(l) == Skipped
    ensures Capture(l) == None
  {
    TrimmedCapture(l);
    if Esc in l {
      EscapeIsNotAssetLine(l);
    }
  }

  /**
   * A `\d` digit from another script passes the pattern but not
   * `u64::from_str`: the line `- assets: ٣` (ARABIC-INDIC DIGIT THREE)
   * matches, and its amount is an invalid digit.
   */
  lemma NonAsciiDigitRejected()
    ensures Capture(AssetPrefix + ['\U{0663}']) == Some(['\U{0663}'])
    ensures Classify(AssetPrefix + ['\U{0663}']) == Unparsable(InvalidDigit)
  {
    var l := AssetPrefix + ['\U{0663}'];
    assert IsDecimalDigit('\U{0663}');
    assert l[|AssetPrefix|..] == ['\U{0663}'];
    assert Trimmed(l);
    TrimKeepsTrimmed(l);
    TrimmedCapture(l);
    assert ParseU64(['\U{0663}']) == Err(InvalidDigit);
    assert Classify(l) == ClassifyTrimmed(l);
  }

  /** An asset line for amount `n`, as the wallet prints it. */
  function AssetLine(n: nat): string
  {
    AssetPrefix + ToDecimal(n)
  }

  /** A printed asset line starts with the dash and carries no line ending of its own. */
  lemma AssetLinePlain(n: nat)
    ensures PlainLine(AssetLine(n))
    ensures AssetLine(n)[0] == '-'
    ensures IsAsciiDigit(AssetLine(n)[|AssetLine(n)| - 1])
  {
    var l := AssetLine(n);
    var d := ToDecimal(n);
    assert l[|l| - 1] == d[|d| - 1];
    forall i | 0 <= i < |l| ensures l[i] != '\n' {
      if i >= |AssetPrefix| {
        assert l[i] == d[i - |AssetPrefix|];
      }
    }
  }

  /** Every `u64` amount the wallet prints is read back as itself. */
  lemma AssetLineClassified(n: nat)
    requires n < U64Limit
    ensures Classify(AssetLine(n)) == Asset(n)
  {
    var l := AssetLine(n);
    var d := ToDecimal(n);
    AssetLinePlain(n);
    assert l[|AssetPrefix|..] == d;
    TrimKeepsTrimmed(l);
    assert Trimmed(l);
    assert AllDigits(d) by {
      forall i | 0 <= i < |d| ensures IsDecimalDigit(d[i]) {
        AsciiDigitIsDecimalDigit(d[i]);
      }
    }
    assert IsAssetLine(l);
    DecimalValueToDecimal(n);
    assert ValidAmount(d);
  }
}

=== FILE: integer.dfy ===
/**
 * Decimal integers as Rust's standard library reads and writes them:
 * `u64::from_str` (with its three error kinds) and the decimal rendering
 * `format!("{}", n)` uses for unsigned integers.
 */
module Integer {
  import opened Wrappers
  import opened Unicode

  /** 2^64: every `u64` is below it. */
  const U64Limit: nat := 0x1_0000_0000_0000_0000

  /** The kinds of `std::num::ParseIntError` an unsigned parse can report. */
  datatype IntErrorKind = Empty | InvalidDigit | PosOverflow

  /** Every character is one of `'0'..'9'`. */
  predicate AllAsciiDigits(s: string)
  {
    forall i :: 0 <= i < |s| ==> IsAsciiDigit(s[i])
  }

  function Pow10(n: nat): (p: nat)
    ensures p >= 1
  {
    if n == 0 then 1 else 10 * Pow10(n - 1)
  }

  /** The number a string of ASCII digits denotes, most significant digit first. */
  function DecimalValue(s: string): nat
    requires AllAsciiDigits(s)
  {
    if s == [] then 0 else DigitValue(s[0]) * Pow10(|s| - 1) + DecimalValue(s[1..])
  }

  /** A product with a factor of at least one is at least the other factor. */
  lemma MulMonotone(a: nat, p: nat)
    requires p >= 1
    ensures a * p >= a
  {
  }

  /** Euclidean remainder is determined by any quotient-remainder decomposition. */
  lemma ModUnique(a: int, k: int, r: int, m: int)
    requires m > 0 && 0 <= r < m && a == k * m + r
    ensures a % m == r
  {
    var q := a / m;
    assert a == q * m + a % m;
    if k > q {
      MulMonotone(m, k - q);
    } else if k < q {
      MulMonotone(m, q - k);
    }
  }

  /** Reducing one summand first does not change the remainder of a sum. */
  lemma ModAddAbsorb(a: nat, b: nat, m: nat)
    requires m > 0
    ensures ((a % m) + b) % m == (a + b) % m
  {
    var q := a / m;
    var s := ((a % m) + b) / m;
    var r := ((a % m) + b) % m;
    assert (a % m) + b == s * m + r;
    assert a + b == (q + s) * m + r by {
      assert a == q * m + a % m;
      assert (q + s) * m == q * m + s * m;
    }
    ModUnique(a + b, q + s, r, m);
  }

  /** Shifting the accumulator one place and adding the digit `d` in front of `p`. */
  lemma AccumulateStep(acc: nat, d: nat, p: nat)
    ensures acc * (10 * p) + d * p == (acc * 10 + d) * p
  {
    calc {
      (acc * 10 + d) * p;
      (acc * 10) * p + d * p;
      acc * (10 * p) + d * p;
    }
  }

  /** Reading the first digit of `t` moves it from the digits into the accumulator. */
  lemma {:induction false} ValueShift(acc: nat, t: string)
    requires t != [] && AllAsciiDigits(t)
    ensures acc * Pow10(|t|) + DecimalValue(t) == (acc * 10 + DigitValue(t[0])) * Pow10(|t| - 1) + DecimalValue(t[1..])
  {
    var d, p := DigitValue(t[0]), Pow10(|t| - 1);
    assert Pow10(|t|) == 10 * p;
    assert DecimalValue(t) == d * p + DecimalValue(t[1..]);
    AccumulateStep(acc, d, p);
  }

  /** `s[i]` is the first character of `s` that is not an ASCII digit. */
  predicate FirstNonDigitAt(s: string, i: int)
  {
    0 <= i < |s| && !IsAsciiDigit(s[i]) && AllAsciiDigits(s[..i])
  }

  /**
   * The digit loop of `u64::from_str`: reads `s` left to right, multiplying
   * the accumulator by ten and adding each digit with checked arithmetic.
   * The first character that is not an ASCII digit is `InvalidDigit`; the
   * first step that leaves the `u64` range is `PosOverflow`. Whichever comes
   * first decides the error.
   */
  function Accumulate(s: string, acc: nat): (r: Result<nat, IntErrorKind>)
    requires acc < U64Limit
    ensures r.Ok? <==> AllAsciiDigits(s) && acc * Pow10(|s|) + DecimalValue(s) < U64Limit
    ensures r.Ok? ==> r.value == acc * Pow10(|s|) + DecimalValue(s)
    ensures r.Err? ==> r.error == InvalidDigit || r.error == PosOverflow
    ensures r.Err? && AllAsciiDigits(s) ==> r.error == PosOverflow
    ensures forall i :: FirstNonDigitAt(s, i) ==>
              r == Err(if acc * Pow10(i) + DecimalValue(s[..i]) < U64Limit then InvalidDigit else PosOverflow)
    decreases |s|
  {
    if s == [] then Ok(acc)
    else if !IsAsciiDigit(s[0]) then
      assert forall i :: FirstNonDigitAt(s, i) ==> i == 0;
      Err(InvalidDigit)
    else
      var next := acc * 10 + DigitValue(s[0]);
      var r := if next >= U64Limit then Err(PosOverflow) else Accumulate(s[1..], next);
      assert AllAsciiDigits(s) <==> AllAsciiDigits(s[1..]) by {
        assert forall i :: 0 < i < |s| ==> s[i] == s[1..][i - 1];
      }
      assert AllAsciiDigits(s) ==> acc * Pow10(|s|) + DecimalValue(s) == next * Pow10(|s| - 1) + DecimalValue(s[1..]) by {
        if AllAsciiDigits(s) {
          ValueShift(acc, s);
        }
      }
      assert next >= U64Limit && AllAsciiDigits(s) ==> next * Pow10(|s| - 1) + DecimalValue(s[1..]) >= U64Limit by {
        MulMonotone(next, Pow10(|s| - 1));
      }
      assert forall i :: FirstNonDigitAt(s, i) ==>
               r == Err(if acc * Pow10(i) + DecimalValue(s[..i]) < U64Limit then InvalidDigit else PosOverflow) by {
        forall i | FirstNonDigitAt(s, i)
          ensures r == Err(if acc * Pow10(i) + DecimalValue(s[..i]) < U64Limit then InvalidDigit else PosOverflow)
        {
          FirstNonDigitAfterDigit(s, i, acc);
        }
      }
      r
  }

  /**
   * When `s` starts with a digit, its first non-digit is one place further
   * on in `s[1..]`, and the accumulator reaching it is the same either way.
   */
  lemma {:induction false} FirstNonDigitAfterDigit(s: string, i: int, acc: nat)
    requires s != [] && IsAsciiDigit(s[0]) && FirstNonDigitAt(s, i)
    ensures i >= 1 && FirstNonDigitAt(s[1..], i - 1)
    ensures acc * Pow10(i) + DecimalValue(s[..i]) == (acc * 10 + DigitValue(s[0])) * Pow10(i - 1) + DecimalValue(s[1..][..i - 1])
    ensures (acc * 10 + DigitValue(s[0])) * Pow10(i - 1) >= acc * 10 + DigitValue(s[0])
  {
    assert s[..i][0] == s[0];
    assert s[..i][1..] == s[1..][..i - 1];
    assert s[1..][i - 1] == s[i];
    ValueShift(acc, s[..i]);
    MulMonotone(acc * 10 + DigitValue(s[0]), Pow10(i - 1));
  }

  /**
   * `u64::from_str`: an optional leading `'+'`, then one or more ASCII
   * digits whose value fits in 64 bits. A lone sign is `InvalidDigit`,
   * the empty string is `Empty`; otherwise the first non-digit gives
   * `InvalidDigit` unless the digits before it already overflow.
   */
  function ParseU64(s: string): (r: Result<nat, IntErrorKind>)
    ensures var digits := if s != [] && s[0] == '+' then s[1..] else s;
            r.Ok? <==> digits != [] && AllAsciiDigits(digits) && DecimalValue(digits) < U64Limit
    ensures var digits := if s != [] && s[0] == '+' then s[1..] else s;
            r.Ok? ==> r.value == DecimalValue(digits)
    ensures r.Ok? ==> r.value < U64Limit
    ensures r == Err(Empty) <==> s == []
    ensures s == "+" ==> r == Err(InvalidDigit)
    ensures var digits := if s != [] && s[0] == '+' then s[1..] else s;
            forall i :: FirstNonDigitAt(digits, i) ==>
              r == Err(if DecimalValue(digits[..i]) < U64Limit then InvalidDigit else PosOverflow)
    ensures var digits := if s != [] && s[0] == '+' then s[1..] else s;
            r.Err? && digits != [] && AllAsciiDigits(digits) ==> r == Err(PosOverflow)
  {
    if s == [] then Err(Empty)
    else if s == "+" || s == "-" then
      assert forall i :: FirstNonDigitAt(s, i) ==> i == 0;
      Err(InvalidDigit)
    else
      var digits := if s[0] == '+' then s[1..] else s;
      var r := Accumulate(digits, 0);
      assert forall i :: FirstNonDigitAt(digits, i) ==> 0 * Pow10(i) + DecimalValue(digits[..i]) == DecimalValue(digits[..i]);
      r
  }

  /** The decimal rendering of `n`: no sign, no leading zeros. */
  function ToDecimal(n: nat): (s: string)
    ensures s != [] && AllAsciiDigits(s)
    ensures |s| > 1 ==> s[0] != '0'
  {
    if n < 10 then [DigitChar(n)] else ToDecimal(n / 10) + [DigitChar(n % 10)]
  }

  /** Appending a digit multiplies the value by ten and adds the digit. */
  lemma {:induction false} DecimalValueSnoc(s: string, c: char)
    requires AllAsciiDigits(s) && IsAsciiDigit(c)
    ensures AllAsciiDigits(s + [c])
    ensures DecimalValue(s + [c]) == DecimalValue(s) * 10 + DigitValue(c)
  {
    var t := s + [c];
    assert forall i :: 0 <= i < |t| ==> t[i] == if i < |s| then s[i] else c;
    if s == [] {
      assert t[1..] == [];
    } else {
      assert t[0] == s[0] && t[1..] == s[1..] + [c];
      DecimalValueSnoc(s[1..], c);
      var d, p := DigitValue(s[0]), Pow10(|s| - 1);
      assert DecimalValue(t) == d * Pow10(|s|) + DecimalValue(s[1..] + [c]);
      assert Pow10(|s|) == 10 * p;
      ShiftDigit(d, p);
    }
  }

  /** A leading digit worth `d * p` is worth ten times that one place further left. */
  lemma ShiftDigit(d: nat, p: nat)
    ensures d * (10 * p) == (d * p) * 10
  {
  }

  /** Reading back a rendered number gives the number. */
  lemma {:induction false} DecimalValueToDecimal(n: nat)
    ensures DecimalValue(ToDecimal(n)) == n
  {
    if n >= 10 {
      DecimalValueToDecimal(n / 10);
      DecimalValueSnoc(ToDecimal(n / 10), DigitChar(n % 10));
    }
  }

  /** `u64::from_str` reads back every rendered `u64`. */
  lemma {:induction false} ParseU64ToDecimal(n: nat)
    requires n < U64Limit
    ensures ParseU64(ToDecimal(n)) == Ok(n)
  {
    DecimalValueToDecimal(n);
  }
}

=== FILE: jsonrpc.dfy ===
/**
 * The request check at the top of the `/rpc/getBalance` handler: a request
 * that is not a JSON-RPC 2.0 `getBalance` call with parameters is answered
 * with error -32600 before anything else happens.
 */
module JsonRpc {
  import opened Wrappers

  /** The `params` object: the public key whose notes are listed. */
  datatype Params = Params(pubkey: string)

  /** A deserialised request body. `rpcMethod` is the JSON field `method`. */
  datatype Request = Request(jsonrpc: string, id: Option<nat>, rpcMethod: string, params: Option<Params>)

  /** A JSON-RPC error object. */
  datatype RpcError = RpcError(code: int, message: string, data: Option<string>)

  /**
   * A JSON-RPC response. JSON-RPC 2.0 wants exactly one of `result` and
   * `error`; the type does not enforce that, and `Admit` builds only error
   * responses, with `result` absent.
   */
  datatype Response<T> = Response(jsonrpc: string, id: Option<nat>, result: Option<T>, error: Option<RpcError>)

  /** The error code JSON-RPC 2.0 assigns to an invalid request object. */
  const InvalidRequestCode: int := -32600

  /** A request the handler serves: protocol version 2.0, method `getBalance`, parameters present. */
  predicate WellFormed(req: Request)
  {
    req.jsonrpc == "2.0" && req.rpcMethod == "getBalance" && req.params.Some?
  }

  /**
   * The admission check of the handler: either the public key to query, or
   * the "Invalid Request" response, which echoes the request id.
   */
  function Admit(req: Request): (r: Result<string, Response<nat>>)
    ensures r.Ok? <==> WellFormed(req)
    ensures r.Ok? ==> r.value == req.params.value.pubkey
    ensures r.Err? ==> r.error == Response("2.0", req.id, None, Some(RpcError(InvalidRequestCode, "Invalid Request", None)))
  {
    if req.jsonrpc != "2.0" || req.rpcMethod != "getBalance" || req.params.None? then
      Err(Response("2.0", req.id, None, Some(RpcError(InvalidRequestCode, "Invalid Request", None))))
    else
      Ok(req.params.value.pubkey)
  }

  /** The id and the public key are the only parts of a request the outcome depends on beyond the three checks. */
  lemma AdmitIgnoresOtherFields(a: Request, b: Request)
    requires WellFormed(a) == WellFormed(b) && a.id == b.id
    requires a.params.Some? && b.params.Some? ==> a.params.value.pubkey == b.params.value.pubkey
    ensures Admit(a) == Admit(b)
  {
  }
}

=== FILE: sums.dfy ===
/**
 * Element-wise maps and sums of a per-element measure over sequences, and
 * why reordering a sequence changes neither.
 */
module Sums {

  /** Applies `g` to every element. */
  function Map<A, B>(s: seq<A>, g: A -> B): (r: seq<B>)
    ensures |r| == |s|
  {
    if s == [] then [] else [g(s[0])] + Map(s[1..], g)
  }

  /** The element at `i` of the mapped sequence is `g` of the element at `i`. */
  lemma {:induction false} MapAt<A, B>(s: seq<A>, g: A -> B, i: nat)
    requires i < |s|
    ensures Map(s, g)[i] == g(s[i])
  {
    if i > 0 {
      MapAt(s[1..], g, i - 1);
    }
  }

  /** Mapping `n` copies of one element gives `n` copies of its image. */
  lemma {:induction false} MapCopies<A, B>(x: A, n: nat, g: A -> B)
    ensures Map(seq(n, _ => x), g) == seq(n, _ => g(x))
  {
    if n > 0 {
      assert seq(n, _ => x)[1..] == seq(n - 1, _ => x);
      MapCopies(x, n - 1, g);
      assert seq(n, _ => g(x)) == [g(x)] + seq(n - 1, _ => g(x));
    }
  }

  /** Mapping distributes over concatenation. */
  lemma {:induction false} MapConcat<A, B>(a: seq<A>, b: seq<A>, g: A -> B)
    ensures Map(a + b, g) == Map(a, g) + Map(b, g)
  {
    if a != [] {
      assert (a + b)[1..] == a[1..] + b;
      MapConcat(a[1..], b, g);
    } else {
      assert a + b == b;
    }
  }

  /** Mapping a sequence with one element singled out. */
  lemma MapSplice<A, B>(pre: seq<A>, x: A, post: seq<A>, g: A -> B)
    ensures Map(pre + [x] + post, g) == Map(pre, g) + [g(x)] + Map(post, g)
  {
    MapConcat(pre + [x], post, g);
    MapConcat(pre, [x], g);
  }

  /** Mapping commutes with taking one element out. */
  lemma MapRemove<A, B>(b: seq<A>, i: nat, g: A -> B)
    requires i < |b|
    ensures Map(b[..i] + b[i + 1..], g) == Map(b, g)[..i] + Map(b, g)[i + 1..]
  {
    var pre, rest := b[..i], b[i..];
    assert b == pre + rest;
    MapConcat(pre, rest, g);
    MapConcat(pre, rest[1..], g);
    assert rest[1..] == b[i + 1..];
    var mb := Map(b, g);
    assert mb[..i] == Map(pre, g);
    assert mb[i + 1..] == Map(rest, g)[1..];
  }

  /** Mapping two reorderings of one sequence gives two reorderings of one sequence. */
  lemma {:induction false} MapPermutation<A, B>(a: seq<A>, b: seq<A>, g: A -> B)
    requires multiset(a) == multiset(b)
    ensures multiset(Map(a, g)) == multiset(Map(b, g))
    decreases |a|
  {
    if a != [] {
      assert a[0] in multiset(b);
      var i :| 0 <= i < |b| && b[i] == a[0];
      MultisetRemove(a, b, i);
      MapPermutation(a[1..], b[..i] + b[i + 1..], g);
      MapRemove(b, i, g);
      MapAt(b, g, i);
      MultisetSplit(Map(b, g), i);
      MultisetSplit(Map(a, g), 0);
      assert Map(a, g)[1..] == Map(a[1..], g);
    } else {
      assert b == [];
    }
  }

  /** The elements of `s` are the element at `i` and those of `s` with it taken out. */
  lemma MultisetSplit<T>(s: seq<T>, i: nat)
    requires i < |s|
    ensures multiset(s) == multiset(s[..i] + s[i + 1..]) + multiset{s[i]}
  {
    assert s == s[..i] + [s[i]] + s[i + 1..];
    assert s[..0] + s[1..] == s[1..];
  }

  /** The sum of `f` over the elements of `s`. */
  function SumOf<T>(s: seq<T>, f: T -> nat): nat
  {
    if s == [] then 0 else f(s[0]) + SumOf(s[1..], f)
  }

  /** Summing distributes over concatenation. */
  lemma {:induction false} SumOfConcat<T>(a: seq<T>, b: seq<T>, f: T -> nat)
    ensures SumOf(a + b, f) == SumOf(a, f) + SumOf(b, f)
  {
    if a != [] {
      assert (a + b)[1..] == a[1..] + b;
      SumOfConcat(a[1..], b, f);
    } else {
      assert a + b == b;
    }
  }

  /** Taking one element out of the sum. */
  lemma SumOfRemove<T>(b: seq<T>, i: nat, f: T -> nat)
    requires i < |b|
    ensures SumOf(b, f) == f(b[i]) + SumOf(b[..i] + b[i + 1..], f)
  {
    assert b == (b[..i] + [b[i]]) + b[i + 1..];
    SumOfConcat(b[..i] + [b[i]], b[i + 1..], f);
    SumOfConcat(b[..i], [b[i]], f);
    SumOfConcat(b[..i], b[i + 1..], f);
  }

  /** Taking one element out of a multiset of a sequence. */
  lemma MultisetRemove<T>(a: seq<T>, b: seq<T>, i: nat)
    requires a != [] && i < |b| && b[i] == a[0]
    requires multiset(a) == multiset(b)
    ensures multiset(a[1..]) == multiset(b[..i] + b[i + 1..])
  {
    assert a == [a[0]] + a[1..];
    assert b == b[..i] + [b[i]] + b[i + 1..];
    assert multiset(a) == multiset{a[0]} + multiset(a[1..]);
    assert multiset(b) == multiset(b[..i]) + multiset{a[0]} + multiset(b[i + 1..]);
    assert multiset(b[..i] + b[i + 1..]) == multiset(b[..i]) + multiset(b[i + 1..]);
    calc {
      multiset(a[1..]);
      multiset(a) - multiset{a[0]};
      multiset(b) - multiset{a[0]};
      multiset(b[..i] + b[i + 1..]);
    }
  }

  /** Two sequences with the same elements, counted with multiplicity, have the same sum. */
  lemma {:induction false} SumOfPermutation<T>(a: seq<T>, b: seq<T>, f: T -> nat)
    requires multiset(a) == multiset(b)
    ensures SumOf(a, f) == SumOf(b, f)
    decreases |a|
  {
    if a != [] {
      assert a[0] in multiset(b);
      var i :| 0 <= i < |b| && b[i] == a[0];
      MultisetRemove(a, b, i);
      SumOfPermutation(a[1..], b[..i] + b[i + 1..], f);
      SumOfRemove(b, i, f);
    } else {
      assert b == [];
    }
  }

  /** `n` copies of one element sum to `n` times its measure. */
  lemma {:induction false} SumOfCopies<T>(x: T, n: nat, f: T -> nat)
    ensures SumOf(seq(n, _ => x), f) == n * f(x)
  {
    if n > 0 {
      assert seq(n, _ => x)[1..] == seq(n - 1, _ => x);
      SumOfCopies(x, n - 1, f);
    }
  }
}

=== FILE: text.dfy ===
/**
 * The two `str` operations the wallet-output parser relies on:
 * `str::trim` and `str::lines`.
 */
module Text {
  import opened Unicode

  /** Every character is whitespace (vacuously true of the empty string). */
  predicate Blank(s: string)
  {
    forall i :: 0 <= i < |s| ==> IsWhitespace(s[i])
  }

  /** `str::trim_start`: drops the longest whitespace prefix. */
  function TrimStart(s: string): (r: string)
    ensures |r| <= |s| && r == s[|s| - |r|..]
    ensures Blank(s[..|s| - |r|])
    ensures r != [] ==> !IsWhitespace(r[0])
  {
    if s != [] && IsWhitespace(s[0]) then
      var r := TrimStart(s[1..]);
      assert s[..|s| - |r|] == [s[0]] + s[1..][..|s| - 1 - |r|];
      r
    else
      s
  }

  /** `str::trim_end`: drops the longest whitespace suffix. */
  function TrimEnd(s: string): (r: string)
    ensures |r| <= |s| && r == s[..|r|]
    ensures Blank(s[|r|..])
    ensures r != [] ==> !IsWhitespace(r[|r| - 1])
  {
    if s != [] && IsWhitespace(s[|s| - 1]) then
      var r := TrimEnd(s[..|s| - 1]);
      assert s[|r|..] == s[..|s| - 1][|r|..] + [s[|s| - 1]];
      r
    else
      s
  }

  /** Neither end of `l` is whitespace: what `str::trim` leaves. */
  predicate Trimmed(l: string)
  {
    l == [] || (!IsWhitespace(l[0]) && !IsWhitespace(l[|l| - 1]))
  }

  /**
   * `str::trim`: removes the whitespace at both ends of `s`. The result is
   * empty exactly when `s` is blank, and otherwise starts and ends with a
   * non-whitespace character (`TrimIsFactor` locates it inside `s`).
   */
  function Trim(s: string): (r: string)
    ensures Blank(s) <==> r == []
    ensures Trimmed(r)
  {
    TrimEnd(TrimStart(s))
  }

  /** What `Trim` keeps is a factor of `s` with only whitespace before and after it. */
  lemma TrimIsFactor(s: string)
    ensures exists a :: 0 <= a <= |s| - |Trim(s)| && Trim(s) == s[a..][..|Trim(s)|] && Blank(s[..a]) && Blank(s[a..][|Trim(s)|..])
  {
    var t := TrimStart(s);
    var r := TrimEnd(t);
    var a := |s| - |t|;
    assert t == s[a..] && Blank(s[..a]);
    assert r == t[..|r|] && Blank(t[|r|..]);
    assert r == Trim(s);
  }

  /** A string that starts and ends with non-whitespace is its own trim. */
  lemma TrimKeepsTrimmed(s: string)
    requires Trimmed(s)
    ensures Trim(s) == s
  {
    assert TrimStart(s) == s;
    assert TrimEnd(s) == s;
  }

  /** Removes one trailing carriage return, if there is one. */
  function StripCr(t: string): string
  {
    if t != [] && t[|t| - 1] == '\r' then t[..|t| - 1] else t
  }

  /** The position of the first line feed in `s`, or `|s|` if there is none. */
  function NewlineIndex(s: string): (i: nat)
    ensures i <= |s|
    ensures i < |s| ==> s[i] == '\n'
    ensures '\n' !in s[..i]
  {
    if s == [] || s[0] == '\n' then 0
    else
      var i := 1 + NewlineIndex(s[1..]);
      assert s[..i] == [s[0]] + s[1..][..i - 1];
      i
  }

  /**
   * `str::lines`: splits at each line feed and removes a carriage return
   * that directly precedes it. The final line ending is optional, so a
   * trailing line feed does not produce an empty last line, and a final
   * line without a line feed keeps any carriage return it ends with.
   */
  function Lines(s: string): (ls: seq<string>)
    ensures forall k :: 0 <= k < |ls| ==> '\n' !in ls[k]
    ensures s == [] <==> ls == []
    decreases |s|
  {
    if s == [] then []
    else
      var i := NewlineIndex(s);
      if i == |s| then [s]
      else [StripCr(s[..i])] + Lines(s[i + 1..])
  }

  /** A line that `Lines` can hand back unchanged: no line feed, no trailing carriage return. */
  predicate PlainLine(l: string)
  {
    '\n' !in l && (l == [] || l[|l| - 1] != '\r')
  }

  /** Each line followed by a line feed: the output of a tool that prints one line per call. */
  function JoinLines(ls: seq<string>): (s: string)
    ensures ls == [] <==> s == []
  {
    if ls == [] then [] else ls[0] + "\n" + JoinLines(ls[1..])
  }

  /** `Lines` undoes `JoinLines` for lines that carry no line ending of their own. */
  lemma {:induction false} LinesJoinLines(ls: seq<string>)
    requires forall k :: 0 <= k < |ls| ==> PlainLine(ls[k])
    ensures Lines(JoinLines(ls)) == ls
  {
    if ls != [] {
      var s := JoinLines(ls);
      var rest := JoinLines(ls[1..]);
      assert s == ls[0] + ("\n" + rest);
      var n := |ls[0]|;
      assert s[n] == '\n';
      assert s[..n] == ls[0];
      assert '\n' !in s[..n];
      NewlineIndexIsFirst(s, n);
      assert s[n + 1..] == rest;
      LinesJoinLines(ls[1..]);
    }
  }

  /**
   * Printing the lines `Lines` finds, each followed by a line feed, gives
   * back a string without carriage returns, with a line feed added at the
   * end if it had none.
   */
  lemma {:induction false} JoinLinesLines(s: string)
    requires '\r' !in s
    ensures JoinLines(Lines(s)) == if s == [] || s[|s| - 1] == '\n' then s else s + "\n"
    decreases |s|
  {
    if s != [] {
      var i := NewlineIndex(s);
      if i == |s| {
        assert s[..i] == s;
        assert Lines(s) == [s];
        JoinLinesCons(s, []);
      } else {
        var head, rest := s[..i], s[i + 1..];
        NoCarriageReturnInParts(s, i);
        LinesAtNewline(s, i);
        JoinLinesCons(head, Lines(rest));
        JoinLinesLines(rest);
        GlueAtNewline(s, i, JoinLines(Lines(rest)));
      }
    }
  }

  /** `Lines` at the first line feed: the line before it, then the lines after it. */
  lemma {:induction false} LinesAtNewline(s: string, i: nat)
    requires s != [] && i == NewlineIndex(s) && i < |s|
    ensures Lines(s) == [StripCr(s[..i])] + Lines(s[i + 1..])
  {
  }

  /**
   * Gluing the part before the line feed at `i` to a printing `j` of the
   * part after it, where `j` adds a line feed only if that part lacks one.
   */
  lemma GlueAtNewline(s: string, i: nat, j: string)
    requires i < |s| && s[i] == '\n'
    requires var rest := s[i + 1..];
             j == if rest == [] || rest[|rest| - 1] == '\n' then rest else rest + "\n"
    ensures s[..i] + "\n" + j == if s[|s| - 1] == '\n' then s else s + "\n"
  {
    var rest := s[i + 1..];
    assert s == s[..i] + "\n" + rest;
    if rest != [] {
      assert rest[|rest| - 1] == s[|s| - 1];
    }
  }

  /** Cutting a string without carriage returns at a line feed leaves no carriage return on either side. */
  lemma NoCarriageReturnInParts(s: string, i: nat)
    requires '\r' !in s && i < |s| && s[i] == '\n'
    ensures '\r' !in s[i + 1..]
    ensures StripCr(s[..i]) == s[..i]
  {
    if i > 0 {
      assert s[..i][i - 1] == s[i - 1];
    }
  }

  /** Printing a line in front of others. */
  lemma JoinLinesCons(x: string, t: seq<string>)
    ensures JoinLines([x] + t) == x + "\n" + JoinLines(t)
  {
    assert ([x] + t)[0] == x && ([x] + t)[1..] == t;
  }

  /** Each line followed by a carriage return and a line feed, as a tool printing Windows line endings would. */
  function JoinCrlfLines(ls: seq<string>): (s: string)
    ensures ls == [] <==> s == []
  {
    if ls == [] then [] else ls[0] + "\r\n" + JoinCrlfLines(ls[1..])
  }

  /** `Lines` drops the carriage return before each line feed, so it undoes `JoinCrlfLines`. */
  lemma {:induction false} LinesJoinCrlfLines(ls: seq<string>)
    requires forall k :: 0 <= k < |ls| ==> '\n' !in ls[k]
    ensures Lines(JoinCrlfLines(ls)) == ls
  {
    if ls != [] {
      var s := JoinCrlfLines(ls);
      var rest := JoinCrlfLines(ls[1..]);
      var n := |ls[0]| + 1;
      assert s == (ls[0] + ['\r']) + ("\n" + rest);
      assert s[n] == '\n';
      assert s[..n] == ls[0] + ['\r'];
      assert '\n' !in s[..n];
      NewlineIndexIsFirst(s, n);
      assert StripCr(s[..n]) == ls[0];
      assert s[n + 1..] == rest;
      LinesJoinCrlfLines(ls[1..]);
    }
  }

  /** The first line feed found is the one at `n` when nothing before it is a line feed. */
  lemma {:induction false} NewlineIndexIsFirst(s: string, n: nat)
    requires n < |s| && s[n] == '\n' && '\n' !in s[..n]
    ensures NewlineIndex(s) == n
  {
  }

  /** Every string of `ls` is blank. */
  predicate AllBlank(ls: seq<string>)
  {
    forall k :: 0 <= k < |ls| ==> Blank(ls[k])
  }

  /** Whether every string is blank does not depend on their order. */
  lemma AllBlankPermutation(la: seq<string>, lb: seq<string>)
    requires multiset(la) == multiset(lb)
    ensures AllBlank(la) <==> AllBlank(lb)
  {
    if AllBlank(la) {
      forall k | 0 <= k < |lb| ensures Blank(lb[k]) {
        assert lb[k] in multiset(la);
      }
    }
    if AllBlank(lb) {
      forall k | 0 <= k < |la| ensures Blank(la[k]) {
        assert la[k] in multiset(lb);
      }
    }
  }

  lemma BlankConcat(a: string, b: string)
    ensures Blank(a + b) <==> Blank(a) && Blank(b)
  {
    if Blank(a) && Blank(b) {
      forall j | 0 <= j < |a + b| ensures IsWhitespace((a + b)[j]) {
        if j >= |a| {
          assert (a + b)[j] == b[j - |a|];
        }
      }
    }
    if Blank(a + b) {
      forall j | 0 <= j < |a| ensures IsWhitespace(a[j]) {
        assert a[j] == (a + b)[j];
      }
      forall j | 0 <= j < |b| ensures IsWhitespace(b[j]) {
        assert b[j] == (a + b)[|a| + j];
      }
    }
  }

  lemma AllBlankCons(x: string, t: seq<string>)
    ensures AllBlank([x] + t) <==> Blank(x) && AllBlank(t)
  {
    var ls := [x] + t;
    assert ls[0] == x;
    assert forall k :: 0 <= k < |t| ==> ls[k + 1] == t[k];
  }

  lemma StripCrBlank(t: string)
    ensures Blank(StripCr(t)) <==> Blank(t)
  {
    if t != [] && t[|t| - 1] == '\r' {
      assert t == StripCr(t) + ['\r'];
      BlankConcat(StripCr(t), ['\r']);
    }
  }

  /** A line feed is whitespace, so a string split at one is blank exactly when both sides are. */
  lemma BlankAroundNewline(s: string, i: nat)
    requires i < |s| && s[i] == '\n'
    ensures Blank(s) <==> Blank(s[..i]) && Blank(s[i + 1..])
  {
    assert s == s[..i] + ([s[i]] + s[i + 1..]);
    BlankConcat(s[..i], [s[i]] + s[i + 1..]);
    BlankConcat([s[i]], s[i + 1..]);
  }

  /** A string is blank exactly when every line `Lines` produces from it is blank. */
  lemma {:induction false} BlankIffLinesBlank(s: string)
    ensures Blank(s) <==> AllBlank(Lines(s))
    decreases |s|
  {
    if s != [] {
      var i := NewlineIndex(s);
      if i == |s| {
        assert Lines(s) == [s];
        AllBlankCons(s, []);
      } else {
        var head := s[..i];
        var rest := s[i + 1..];
        assert Lines(s) == [StripCr(head)] + Lines(rest);
        BlankIffLinesBlank(rest);
        AllBlankCons(StripCr(head), Lines(rest));
        StripCrBlank(head);
        BlankAroundNewline(s, i);
      }
    }
  }
}

=== FILE: unicode.dfy ===
/**
 * Character classes used by Rust's `str::trim` and by the Unicode-mode
 * classes `\s` and `\d` of the `regex` crate.
 */
module Unicode {

  /**
   * `char::is_whitespace`, and `\s` in the `regex` crate: the Unicode
   * `White_Space` property (25 code points).
   */
  predicate IsWhitespace(c: char)
  {
    var n := c as int;
    || (0x09 <= n <= 0x0D)
    || n == 0x20
    || n == 0x85
    || n == 0xA0
    || n == 0x1680
    || (0x2000 <= n <= 0x200A)
    || n == 0x2028
    || n == 0x2029
    || n == 0x202F
    || n == 0x205F
    || n == 0x3000
  }

  /**
   * Whether `n` lies in one of the runs of ten code points starting at the
   * elements of `zeros`.
   */
  predicate InDigitRuns(n: int, zeros: seq<int>)
  {
    zeros != [] && ((zeros[0] <= n < zeros[0] + 10) || InDigitRuns(n, zeros[1..]))
  }

  /** The zero digits of the `Nd` runs between U+0660 and U+1099. */
  const ZerosBand1: seq<int> :=
    [0x660, 0x6F0, 0x7C0, 0x966, 0x9E6, 0xA66, 0xAE6, 0xB66, 0xBE6, 0xC66, 0xCE6,
     0xD66, 0xDE6, 0xE50, 0xED0, 0xF20, 0x1040, 0x1090]

  /** The zero digits of the `Nd` runs between U+17E0 and U+1C59. */
  const ZerosBand2: seq<int> :=
    [0x17E0, 0x1810, 0x1946, 0x19D0, 0x1A80, 0x1A90, 0x1B50, 0x1BB0, 0x1C40, 0x1C50]

  /** The zero digits of the `Nd` runs from U+A620 on. */
  const ZerosBand3: seq<int> :=
    [0xA620, 0xA8D0, 0xA900, 0xA9D0, 0xA9F0, 0xAA50, 0xABF0, 0xFF10, 0x104A0,
     0x10D30, 0x11066, 0x110F0, 0x11136, 0x111D0, 0x112F0, 0x11450, 0x114D0,
     0x11650, 0x116C0, 0x11730, 0x118E0, 0x11950, 0x11C50, 0x11D50, 0x11DA0,
     0x11F50, 0x16A60, 0x16AC0, 0x16B50, 0x1D7CE, 0x1D7D8, 0x1D7E2, 0x1D7EC,
     0x1D7F6, 0x1E140, 0x1E2F0, 0x1E4F0, 0x1E950, 0x1FBF0]

  /**
   * `\d` in the `regex` crate's Unicode mode: general category `Nd`
   * (Unicode 15.0). Every `Nd` character belongs to a run of ten
   * consecutive code points whose first member has digit value zero; the
   * runs are grouped into the ASCII run and three bands that no whitespace
   * code point falls in.
   */
  predicate IsDecimalDigit(c: char)
  {
    var n := c as int;
    || (0x30 <= n <= 0x39)
    || (0x660 <= n <= 0x1099 && InDigitRuns(n, ZerosBand1))
    || (0x17E0 <= n <= 0x1C59 && InDigitRuns(n, ZerosBand2))
    || (0xA620 <= n && InDigitRuns(n, ZerosBand3))
  }

  /** Each band holds its runs whole, so the band bounds in `IsDecimalDigit` exclude no digit. */
  lemma BandsHoldTheirRuns()
    ensures forall i :: 0 <= i < |ZerosBand1| ==> 0x660 <= ZerosBand1[i] && ZerosBand1[i] + 9 <= 0x1099
    ensures forall i :: 0 <= i < |ZerosBand2| ==> 0x17E0 <= ZerosBand2[i] && ZerosBand2[i] + 9 <= 0x1C59
    ensures forall i :: 0 <= i < |ZerosBand3| ==> 0xA620 <= ZerosBand3[i]
  {
  }

  /** The ten characters `'0'..'9'`, the only digits `u64::from_str` accepts. */
  predicate IsAsciiDigit(c: char)
  {
    '0' <= c <= '9'
  }

  /** The value of an ASCII digit. */
  function DigitValue(c: char): (d: nat)
    requires IsAsciiDigit(c)
    ensures d < 10
  {
    (c as int) - ('0' as int)
  }

  /** The ASCII digit whose value is `d`. */
  function DigitChar(d: nat): (c: char)
    requires d < 10
    ensures IsAsciiDigit(c) && DigitValue(c) == d
  {
    ('0' as int + d) as char
  }

  /** Every ASCII digit is a `\d` digit. */
  lemma AsciiDigitIsDecimalDigit(c: char)
    ensures IsAsciiDigit(c) ==> IsDecimalDigit(c)
  {
  }

  /** `\d` and `\s` share no character. */
  lemma DigitIsNotWhitespace(c: char)
    ensures IsDecimalDigit(c) ==> !IsWhitespace(c)
  {
  }
}

=== FILE: wallet.dfy ===
/**
 * `parse_nockchain_output`: reads what `nockchain-wallet list-notes-by-pubkey`
 * prints, adds up the amounts on the `- assets: <n>` lines, and accepts the
 * total only when at least nine such lines were found.
 */
module WalletOutput {
  import opened Wrappers
  import opened Unicode
  import opened Text
  import opened Integer
  import opened Sums
  import opened AssetLines

  /** Fewer asset lines than this is reported as incomplete output. */
  const RequiredAssets: nat := 9

  /** Why the wallet output was rejected. */
  datatype ParseError =
    | EmptyOutput                   // the whole output is whitespace
    | BadAssets(kind: IntErrorKind) // a captured amount is not a `u64`
    | Incomplete(found: nat)        // fewer than nine asset lines

  /** The `Display` text of a `ParseIntError` of the given kind. */
  function KindText(k: IntErrorKind): string
  {
    match k
    case Empty => "cannot parse integer from empty string"
    case InvalidDigit => "invalid digit found in string"
    case PosOverflow => "number too large to fit in target type"
  }

  const IncompletePrefix: string := "Incomplete output: processed "
  const IncompleteSuffix: string := " assets, expected 9"

  /** The error string the function returns. */
  function Message(e: ParseError): string
  {
    match e
    case EmptyOutput => "Empty command output"
    case BadAssets(k) => "Failed to parse assets: " + KindText(k)
    case Incomplete(n) => IncompletePrefix + ToDecimal(n) + IncompleteSuffix
  }

  /** The count in an "Incomplete output" message can be read back from it. */
  lemma IncompleteMessageCarriesCount(n: nat)
    ensures var m := Message(Incomplete(n));
            && |m| > |IncompletePrefix| + |IncompleteSuffix|
            && m[..|IncompletePrefix|] == IncompletePrefix
            && var digits := m[|IncompletePrefix|..|m| - |IncompleteSuffix|];
               AllAsciiDigits(digits) && DecimalValue(digits) == n
  {
    var m := Message(Incomplete(n));
    assert m[|IncompletePrefix|..|m| - |IncompleteSuffix|] == ToDecimal(n);
    DecimalValueToDecimal(n);
  }

  /** The amount a line adds to the running total. */
  function KindValue(k: LineKind): nat
  {
    if k.Asset? then k.value else 0
  }

  /** What a line adds to the count of asset lines. */
  function KindCount(k: LineKind): nat
  {
    if k.Asset? then 1 else 0
  }

  /** No line carries an amount that fails to parse. */
  predicate NoBadAmount(ks: seq<LineKind>)
  {
    forall i :: 0 <= i < |ks| ==> !ks[i].Unparsable?
  }

  /** The running total and the number of asset lines seen. */
  datatype Tally = Tally(total: nat, count: nat)

  /**
   * The loop over the classified lines, summing exactly. The first line
   * whose amount fails to parse ends the loop with that error.
   */
  function Scan(ks: seq<LineKind>): (r: Result<Tally, IntErrorKind>)
    ensures r.Ok? <==> NoBadAmount(ks)
    ensures r.Ok? ==> r.value == Tally(SumOf(ks, KindValue), SumOf(ks, KindCount))
  {
    if ks == [] then Ok(Tally(0, 0))
    else if ks[0].Unparsable? then Err(ks[0].kind)
    else
      assert NoBadAmount(ks) <==> NoBadAmount(ks[1..]) by {
        assert forall i :: 0 < i < |ks| ==> ks[i] == ks[1..][i - 1];
      }
      match Scan(ks[1..])
      case Err(k) => Err(k)
      case Ok(t) => Ok(Tally(KindValue(ks[0]) + t.total, KindCount(ks[0]) + t.count))
  }

  /** A line with an unparsable amount decides the result; the lines after it are never looked at. */
  lemma {:induction false} ScanStopsAtBadAmount(pre: seq<LineKind>, k: LineKind, post: seq<LineKind>)
    requires NoBadAmount(pre) && k.Unparsable?
    ensures Scan(pre + [k] + post) == Err(k.kind)
  {
    if pre != [] {
      assert (pre + [k] + post)[0] == pre[0];
      assert (pre + [k] + post)[1..] == pre[1..] + [k] + post;
      assert !pre[0].Unparsable?;
      assert NoBadAmount(pre[1..]) by {
        assert forall i :: 0 <= i < |pre| - 1 ==> pre[1..][i] == pre[i + 1];
      }
      ScanStopsAtBadAmount(pre[1..], k, post);
    } else {
      assert pre + [k] + post == [k] + post;
    }
  }

  /** A skipped or unmatched line changes neither the total, nor the count, nor the error. */
  lemma {:induction false} ScanIgnoresOtherLines(pre: seq<LineKind>, k: LineKind, post: seq<LineKind>)
    requires k.Skipped? || k.Unmatched?
    ensures Scan(pre + [k] + post) == Scan(pre + post)
  {
    if pre != [] {
      assert (pre + [k] + post)[0] == pre[0] == (pre + post)[0];
      assert (pre + [k] + post)[1..] == pre[1..] + [k] + post;
      assert (pre + post)[1..] == pre[1..] + post;
      ScanIgnoresOtherLines(pre[1..], k, post);
    } else {
      assert pre + [k] + post == [k] + post;
      assert ([k] + post)[1..] == post;
      assert pre + post == post;
    }
  }

  /** After the loop: fewer than nine asset lines is an error, otherwise the total is the result. */
  function Summarize(ks: seq<LineKind>): (r: Result<nat, ParseError>)
    ensures r.Ok? <==> NoBadAmount(ks) && SumOf(ks, KindCount) >= RequiredAssets
    ensures r.Ok? ==> r.value == SumOf(ks, KindValue)
    ensures NoBadAmount(ks) && SumOf(ks, KindCount) < RequiredAssets ==> r == Err(Incomplete(SumOf(ks, KindCount)))
    ensures !NoBadAmount(ks) ==> r.Err? && r.error.BadAssets?
    ensures forall i :: 0 <= i < |ks| && NoBadAmount(ks[..i]) && ks[i].Unparsable? ==> r == Err(BadAssets(ks[i].kind))
    ensures r != Err(EmptyOutput)
  {
    assert forall i :: 0 <= i < |ks| && NoBadAmount(ks[..i]) && ks[i].Unparsable? ==> Scan(ks) == Err(ks[i].kind) by {
      forall i | 0 <= i < |ks| && NoBadAmount(ks[..i]) && ks[i].Unparsable?
        ensures Scan(ks) == Err(ks[i].kind)
      {
        assert ks == ks[..i] + [ks[i]] + ks[i + 1..];
        ScanStopsAtBadAmount(ks[..i], ks[i], ks[i + 1..]);
      }
    }
    match Scan(ks)
    case Err(k) => Err(BadAssets(k))
    case Ok(t) => if t.count < RequiredAssets then Err(Incomplete(t.count)) else Ok(t.total)
  }

  /** Each line of the output, classified. */
  function LineKinds(output: string): seq<LineKind>
  {
    Map(Lines(output), Classify)
  }

  /**
   * `parse_nockchain_output`, with the total kept exact. Blank output is
   * rejected before any line is looked at; otherwise the result is the sum
   * of the amounts on the asset lines, provided there are at least nine of
   * them and every amount parses.
   */
  function Parse(output: string): (r: Result<nat, ParseError>)
    ensures r == Err(EmptyOutput) <==> Blank(output)
    ensures r.Ok? <==> !Blank(output) && NoBadAmount(LineKinds(output)) && SumOf(LineKinds(output), KindCount) >= RequiredAssets
    ensures r.Ok? ==> r.value == SumOf(LineKinds(output), KindValue)
    ensures !Blank(output) && NoBadAmount(LineKinds(output)) && SumOf(LineKinds(output), KindCount) < RequiredAssets
            ==> r == Err(Incomplete(SumOf(LineKinds(output), KindCount)))
    ensures !Blank(output) && !NoBadAmount(LineKinds(output)) ==> r.Err? && r.error.BadAssets?
    ensures var ks := LineKinds(output);
            forall i :: 0 <= i < |ks| && !Blank(output) && NoBadAmount(ks[..i]) && ks[i].Unparsable? ==> r == Err(BadAssets(ks[i].kind))
  {
    if Trim(output) == [] then Err(EmptyOutput) else Summarize(LineKinds(output))
  }

  /** Blank output yields no asset line: every line of it would be skipped. */
  lemma {:induction false} BlankOutputSkipsEveryLine(output: string)
    requires Blank(output)
    ensures forall k :: 0 <= k < |LineKinds(output)| ==> LineKinds(output)[k] == Skipped
  {
    BlankIffLinesBlank(output);
    forall k | 0 <= k < |Lines(output)|
      ensures LineKinds(output)[k] == Skipped
    {
      MapAt(Lines(output), Classify, k);
      assert Blank(Lines(output)[k]);
    }
  }

  /** Inserting a line that is not an asset line anywhere in the output leaves the result unchanged. */
  lemma {:induction false} SummarizeIgnoresOtherLines(pre: seq<string>, l: string, post: seq<string>)
    requires !IsAssetLine(Trim(l))
    ensures Summarize(Map(pre + [l] + post, Classify)) == Summarize(Map(pre + post, Classify))
  {
    var k := Classify(l);
    assert k.Skipped? || k.Unmatched? by {
      assert k == ClassifyTrimmed(Trim(l));
    }
    var kpre, kpost := Map(pre, Classify), Map(post, Classify);
    MapSplice(pre, l, post, Classify);
    MapConcat(pre, post, Classify);
    ScanIgnoresOtherLines(kpre, k, kpost);
    SummarizeOfScan(Map(pre + [l] + post, Classify), Map(pre + post, Classify));
  }

  /** `Summarize` looks at the classified lines only through `Scan`. */
  lemma SummarizeOfScan(ka: seq<LineKind>, kb: seq<LineKind>)
    requires Scan(ka) == Scan(kb)
    ensures Summarize(ka) == Summarize(kb)
  {
  }

  /** Reordering the classified lines changes at most which unparsable amount is reported. */
  lemma {:induction false} SummarizeOrderIndependent(ka: seq<LineKind>, kb: seq<LineKind>)
    requires multiset(ka) == multiset(kb)
    ensures Summarize(ka) == Summarize(kb) || (Summarize(ka).Err? && Summarize(ka).error.BadAssets? && Summarize(kb).Err? && Summarize(kb).error.BadAssets?)
  {
    assert NoBadAmount(ka) <==> NoBadAmount(kb) by {
      if NoBadAmount(ka) {
        forall k | 0 <= k < |kb| ensures !kb[k].Unparsable? {
          assert kb[k] in multiset(ka);
        }
      }
      if NoBadAmount(kb) {
        forall k | 0 <= k < |ka| ensures !ka[k].Unparsable? {
          assert ka[k] in multiset(kb);
        }
      }
    }
    SumOfPermutation(ka, kb, KindValue);
    SumOfPermutation(ka, kb, KindCount);
  }

  /** Reordering the lines of the output changes at most which unparsable amount is reported. */
  lemma {:induction false} ParseOrderIndependent(a: string, b: string)
    requires multiset(Lines(a)) == multiset(Lines(b))
    ensures Parse(a) == Parse(b) || (Parse(a).Err? && Parse(a).error.BadAssets? && Parse(b).Err? && Parse(b).error.BadAssets?)
  {
    BlankIffLinesBlank(a);
    BlankIffLinesBlank(b);
    AllBlankPermutation(Lines(a), Lines(b));
    MapPermutation(Lines(a), Lines(b), Classify);
    SummarizeOrderIndependent(LineKinds(a), LineKinds(b));
  }

  /**
   * The loop as compiled in a release build: `total_assets += assets` on a
   * `u64` wraps around modulo 2^64 instead of failing.
   */
  function ScanWrapping(ks: seq<LineKind>, total: nat, count: nat): Result<Tally, IntErrorKind>
    requires total < U64Limit
  {
    if ks == [] then Ok(Tally(total, count))
    else
      match ks[0]
      case Unparsable(k) => Err(k)
      case Asset(v) => ScanWrapping(ks[1..], (total + v) % U64Limit, count + 1)
      case _ => ScanWrapping(ks[1..], total, count)
  }

  /** After the wrapping loop, as written. */
  function SummarizeWrapping(ks: seq<LineKind>): Result<nat, ParseError>
  {
    match ScanWrapping(ks, 0, 0)
    case Err(k) => Err(BadAssets(k))
    case Ok(t) => if t.count < RequiredAssets then Err(Incomplete(t.count)) else Ok(t.total)
  }

  /**
   * `parse_nockchain_output` as written, with the wrapping addition: it
   * fails exactly where `Parse` fails, with the same error, and a success
   * is the total of the amounts modulo 2^64.
   */
  function ParseAsWritten(output: string): (r: Result<nat, ParseError>)
    ensures r == Err(EmptyOutput) <==> Blank(output)
    ensures r.Ok? <==> !Blank(output) && NoBadAmount(LineKinds(output)) && SumOf(LineKinds(output), KindCount) >= RequiredAssets
    ensures r.Ok? ==> r.value == SumOf(LineKinds(output), KindValue) % U64Limit && r.value < U64Limit
    ensures !Blank(output) && NoBadAmount(LineKinds(output)) && SumOf(LineKinds(output), KindCount) < RequiredAssets
            ==> r == Err(Incomplete(SumOf(LineKinds(output), KindCount)))
    ensures var ks := LineKinds(output);
            forall i :: 0 <= i < |ks| && !Blank(output) && NoBadAmount(ks[..i]) && ks[i].Unparsable? ==> r == Err(BadAssets(ks[i].kind))
  {
    if Trim(output) == [] then Err(EmptyOutput)
    else
      SummarizeWrappingIsModulo(LineKinds(output));
      SummarizeWrapping(LineKinds(output))
  }

  /** The wrapping loop keeps the exact loop's count and error, and its total modulo 2^64. */
  lemma {:induction false} ScanWrappingIsScanModulo(ks: seq<LineKind>, total: nat, count: nat)
    requires total < U64Limit
    ensures Scan(ks).Err? ==> ScanWrapping(ks, total, count) == Scan(ks)
    ensures Scan(ks).Ok? ==>
              ScanWrapping(ks, total, count) == Ok(Tally((total + Scan(ks).value.total) % U64Limit, count + Scan(ks).value.count))
  {
    if ks != [] {
      match ks[0]
      case Unparsable(k) =>
      case Asset(v) =>
        ScanWrappingIsScanModulo(ks[1..], (total + v) % U64Limit, count + 1);
        if Scan(ks[1..]).Ok? {
          ModAddAbsorb(total + v, Scan(ks[1..]).value.total, U64Limit);
        }
      case _ =>
        ScanWrappingIsScanModulo(ks[1..], total, count);
    }
  }

  /** As written, the result is the exact one with the total reduced modulo 2^64; the two agree while the total fits. */
  lemma {:induction false} AsWrittenWrapsTotal(output: string)
    ensures Parse(output).Err? ==> ParseAsWritten(output) == Parse(output)
    ensures Parse(output).Ok? ==> ParseAsWritten(output) == Ok(Parse(output).value % U64Limit)
    ensures Parse(output).Ok? && Parse(output).value < U64Limit ==> ParseAsWritten(output) == Parse(output)
  {
    if Trim(output) != [] {
      var ks := LineKinds(output);
      assert Parse(output) == Summarize(ks);
      assert ParseAsWritten(output) == SummarizeWrapping(ks);
      SummarizeWrappingIsModulo(ks);
    }
  }

  lemma SummarizeWrappingIsModulo(ks: seq<LineKind>)
    ensures Summarize(ks).Err? ==> SummarizeWrapping(ks) == Summarize(ks)
    ensures Summarize(ks).Ok? ==> SummarizeWrapping(ks) == Ok(Summarize(ks).value % U64Limit)
    ensures Summarize(ks).Ok? && Summarize(ks).value < U64Limit ==> SummarizeWrapping(ks) == Summarize(ks)
  {
    ScanWrappingIsScanModulo(ks, 0, 0);
    if Summarize(ks).Ok? && Summarize(ks).value < U64Limit {
      ModUnique(Summarize(ks).value, 0, Summarize(ks).value, U64Limit);
    }
  }

  /** Nine asset lines, each for amount `n`. */
  function NineAssetLines(n: nat): string
  {
    JoinLines(seq(9, _ => AssetLine(n)))
  }

  lemma NineAssetLinesLines(n: nat)
    requires n < U64Limit
    ensures !Blank(NineAssetLines(n))
    ensures Lines(NineAssetLines(n)) == seq(9, _ => AssetLine(n))
  {
    var ls := seq(9, _ => AssetLine(n));
    AssetLinePlain(n);
    LinesJoinLines(ls);
    NotBlankJoinLines(ls);
  }

  lemma NineAssetLinesKinds(n: nat)
    requires n < U64Limit
    ensures !Blank(NineAssetLines(n))
    ensures LineKinds(NineAssetLines(n)) == seq(9, _ => Asset(n))
  {
    NineAssetLinesLines(n);
    AssetLineClassified(n);
    MapCopies(AssetLine(n), 9, Classify);
  }

  /** Output whose first line has a non-whitespace character is not blank. */
  lemma NotBlankJoinLines(ls: seq<string>)
    requires ls != [] && ls[0] != [] && !IsWhitespace(ls[0][0])
    ensures !Blank(JoinLines(ls))
  {
    assert JoinLines(ls)[0] == ls[0][0];
  }

  lemma NineAssetsSummed(n: nat)
    requires n < U64Limit
    ensures Summarize(seq(9, _ => Asset(n))) == Ok(9 * n)
    ensures SummarizeWrapping(seq(9, _ => Asset(n))) == Ok((9 * n) % U64Limit)
  {
    SumOfCopies(Asset(n), 9, KindValue);
    SumOfCopies(Asset(n), 9, KindCount);
    SummarizeWrappingIsModulo(seq(9, _ => Asset(n)));
  }

  /** Nine asset lines of amount `n`: the exact total is `9 * n`, the code as written returns it modulo 2^64. */
  lemma NineAssetLinesParsed(n: nat)
    requires n < U64Limit
    ensures Parse(NineAssetLines(n)) == Ok(9 * n)
    ensures ParseAsWritten(NineAssetLines(n)) == Ok((9 * n) % U64Limit)
  {
    NineAssetLinesKinds(n);
    NineAssetsSummed(n);
  }

  /**
   * Nine lines of the largest `u64` amount: the exact total is 9 * (2^64 - 1),
   * while the code as written returns it wrapped to 2^64 - 9.
   */
  lemma WrapAroundWitness()
    ensures Parse(NineAssetLines(U64Limit - 1)) == Ok(9 * (U64Limit - 1))
    ensures ParseAsWritten(NineAssetLines(U64Limit - 1)) == Ok(U64Limit - 9)
  {
    NineAssetLinesParsed(U64Limit - 1);
    ModUnique(9 * (U64Limit - 1), 8, U64Limit - 9, U64Limit);
  }
}

=== FILE: wrappers.dfy ===
/** Failure-carrying result types shared by the rest of the model. */
module Wrappers {

  /** An optional value: Rust's `Option<T>`. */
  datatype Option<+T> = None | Some(value: T)

  /** A value or an error: Rust's `Result<T, E>`. */
  datatype Result<+T, +E> = Ok(value: T) | Err(error: E)
}
